=== FILE: README.md ===
# MQTT cover: range mapping and state reconciliation

A Dafny model of the core of Home Assistant's MQTT cover platform
(`homeassistant/components/cover/mqtt.py`): a blind, shade or garage door whose
state arrives as MQTT payloads and whose commands go out as MQTT payloads.

What is modelled:

- **Range mapping** (`RangeMap`). A native value is converted to a 0–100
  percentage (`find_percentage_in_range`), and a percentage back to a native
  value (`find_in_range_from_percent`). The cover range runs from
  `position_closed` to `position_open`. The tilt range runs from `tilt_min` to
  `tilt_max`, and only the tilt range honours `tilt_invert_state`. Arithmetic
  is exact over the rationals, and `round` is Python 3's round-half-to-even
  (`Rounding.RoundHalfEven`).
- **Configuration** (`CoverConfig`): the constructor arguments, the
  `validate_options` rule and the `supported_features` bitmask.
- **Believed state and modes** (`CoverState`): `_state` (closed, or unknown),
  `_position`, `_tilt_value`, and the flags `_optimistic` and
  `_tilt_optimistic`, as set by `__init__` and `async_added_to_hass`.
- **Inbound callbacks** (`Inbound`): tilt status, open/closed state and
  position.
- **Commands** (`Commands`): open, close, stop, tilt open, tilt close, set tilt
  position and set cover position.

Every handler is a pure function from (configuration, cover, payload or
request) to a `Step`. A `Step` holds the new cover, whether a state update was
scheduled (`notified`), and the publication, if any: a topic plus a text or
numeric payload. `Reconciliation` relates each command's optimistic guess to
what the matching inbound callback would set: for open and close whenever no
value template is set (close on the state topic also needs distinct open and
closed tokens, and on the position topic both ends must be non-negative),
for tilt open and close on the non-inverted tilt range 0..100 with both
configured values inside it, and for set position
wherever the defects below do not apply. `Findings` holds concrete inputs on
which `async_set_cover_position`, tilt open and tilt close each disagree with
the rest of the cover.

The two templates are opaque functions that can fail:

- The value template, applied to inbound state and position payloads, has type
  `string -> Option<string>`. A failure (`None`) stops the callback before it
  changes anything.
- The set-position template has type `int -> Option<string>`. Its only input is
  the requested position.

Behaviour that is easy to misstate, modelled as the code has it:

- Optimistic open and close set the position when a *position* (report) topic
  exists. They do not depend on a set-position topic.
- When the set-position template fails, the unrendered percentage is still
  published and, on a non-optimistic cover, the closed flag becomes unknown.
  An optimistic cover overwrites it with its usual guess.
- `set_position(42)` on a native range 0..200 publishes 42, not 84. This is
  because the conversion needs both ends to differ from their defaults (see
  Findings).
- A percentage to native to percentage trip is exact on ranges at least
  100 units wide (`RangeMap.PercentRoundTrip`). A native to percentage to
  native trip can be off by half a native unit plus half a percent of the
  range (`RangeMap.NativeRoundTrip`). That is 5 units on 0..1000, not ±1
  (`RangeMap.HalfToEvenExamples`).

## Model

| member | source | states |
|---|---|---|
| `Rounding.RoundHalfEven` | homeassistant/components/cover/mqtt.py:470-471 | the result is an integer within one half of n / d, and on an exact half it is the even one |
| `Rounding.RoundHalfEvenUnique` | homeassistant/components/cover/mqtt.py:498 | any integer strictly closer than one half to n / d is the rounded value |
| `Digits.ValueOfShow` | homeassistant/components/cover/mqtt.py:253-256 | `int()` of the decimal spelling of a natural number is that number |
| `RangeMap.ToPercentage` | homeassistant/components/cover/mqtt.py:458-479 | the percentage is always in 0..100; a value at or past the `min` end reads 0 % and one at or past the `max` end reads 100 %, both counted on the un-inverted scale |
| `RangeMap.ToPercentageNearest` | homeassistant/components/cover/mqtt.py:467-476 | inside the range nothing is clamped: the un-inverted percentage is the one nearest to where the value sits between `min` and `max`, and the even one on an exact half |
| `RangeMap.FromPercentage` | homeassistant/components/cover/mqtt.py:481-503 | the result is the native value nearest to pct % of the way from `min`, or from `max` when inverted, and the even offset on an exact half; for 0..100 % it stays inside the range; 0 % gives `min` and 100 % gives `max`, swapped under inversion |
| `RangeMap.InversionComplements` | homeassistant/components/cover/mqtt.py:477-478 | the inverted percentage is exactly 100 minus the plain one, and the inverted native value is the plain one reflected in the range |
| `RangeMap.PercentRoundTrip` | homeassistant/components/cover/mqtt.py:481-503 | on a range at least 100 units wide, converting a percentage in 0..100 to native and back returns it, inverted or not |
| `RangeMap.NativeRoundTrip` | homeassistant/components/cover/mqtt.py:458-503 | a native value inside the range comes back within (100 + range width) / 200 units after converting to a percentage and back |
| `RangeMap.DocstringExample` | homeassistant/components/cover/mqtt.py:485-488 | 90 % of 80..180 is 170, and 170 reads as 90 % |
| `RangeMap.HalfToEvenExamples` | homeassistant/components/cover/mqtt.py:470-471 | on 0..200 the value 1 (0.5 %) reads 0 % and 3 (1.5 %) reads 2 %; on 0..1000 the value 5 comes back as 0 |
| `CoverConfig.RangeOf` | homeassistant/components/cover/mqtt.py:461-466 | the cover range is `position_closed`..`position_open` and never inverted; the tilt range is `tilt_min`..`tilt_max` with the tilt inversion flag |
| `CoverConfig.ValidateOptions` | homeassistant/components/cover/mqtt.py:82-91 | a configuration is refused exactly when it has a set-position topic but no position topic, and is otherwise returned unchanged |
| `CoverConfig.SupportedFeatures` | homeassistant/components/cover/mqtt.py:349-361 | each feature bit is set exactly when its topic is configured: open/close/stop for the command topic, set-position for the set-position topic, the four tilt bits for the tilt command topic |
| `CoverState.Init` | homeassistant/components/cover/mqtt.py:232-238 | a new cover knows nothing (closed, position and tilt unset); it is optimistic iff the flag is set or both report topics are `None`; the tilt flag is taken as configured |
| `CoverState.AddedToHass` | homeassistant/components/cover/mqtt.py:295-313 | the position callback is subscribed iff the position topic is truthy, the state callback only without one; optimism is kept and forced on when neither is subscribed; tilt optimism holds iff there is no tilt status topic, whatever its flag, and a subscribed tilt becomes unknown; closed flag and position are untouched |
| `CoverState.AddedToHassIdempotent` | homeassistant/components/cover/mqtt.py:295-313 | attaching a cover a second time changes neither its state nor the chosen callback |
| `CoverState.Setup` | homeassistant/components/cover/mqtt.py:232-313 | after construction and attaching, the cover is optimistic iff the flag is set or neither report topic is usable; it is tilt-optimistic iff there is no tilt status topic; nothing is known except that a subscribed tilt is unknown; the position callback is chosen iff there is a position topic, the state callback only without one, and a non-optimistic cover always has one of them |
| `Inbound.TiltUpdated` | homeassistant/components/cover/mqtt.py:251-258 | an all-digit payload within `tilt_min..tilt_max` sets only the tilt, to the nearest percentage in 0..100 (counted from `tilt_max` when inverted), and schedules one update; any other payload changes nothing and schedules nothing |
| `Inbound.StateMessageReceived` | homeassistant/components/cover/mqtt.py:261-274 | the open token makes the cover open, otherwise the closed token makes it closed; only the closed flag changes; any other payload, or a failed rendering, changes nothing and schedules nothing |
| `Inbound.PositionMessageReceived` | homeassistant/components/cover/mqtt.py:277-293 | an all-digit (rendered) payload sets the position to a percentage in 0..100, clamped at the ends and nearest in between, and sets closed iff that percentage is 0; anything else changes nothing and schedules nothing |
| `Inbound.DefaultRangeReports` | homeassistant/components/cover/mqtt.py:253-293 | on the default ranges the report "0" gives 0 % and closed, "100" gives 100 % and open, and a tilt report of "150" is ignored |
| `Commands.OpenCover` | homeassistant/components/cover/mqtt.py:363-377 | the open payload is always published; when optimistic the cover becomes open and, with a position topic, 100 %; otherwise nothing changes |
| `Commands.CloseCover` | homeassistant/components/cover/mqtt.py:379-393 | the close payload is always published; when optimistic the cover becomes closed and, with a position topic, 0 %; otherwise nothing changes |
| `Commands.StopCover` | homeassistant/components/cover/mqtt.py:395-402 | the stop payload is published and the cover never changes |
| `Commands.OpenCoverTilt` | homeassistant/components/cover/mqtt.py:404-411 | the configured tilt-open value is published; when tilt-optimistic it becomes the tilt as it is, without conversion to a percentage |
| `Commands.CloseCoverTilt` | homeassistant/components/cover/mqtt.py:413-420 | the configured tilt-closed value is published; when tilt-optimistic it becomes the tilt as it is |
| `Commands.SetCoverTiltPosition` | homeassistant/components/cover/mqtt.py:422-433 | never changes the cover; without a tilt position it publishes nothing; with one it publishes the native tilt value nearest to that percentage of the tilt range (the even offset on an exact half), which lies inside the range for 0..100 % |
| `Commands.OpenCoverTiltIntended` | homeassistant/components/cover/mqtt.py:404-411 | the corrected tilt open: publishes the tilt-open value; when tilt-optimistic only the tilt changes, to a percentage in 0..100 that is 100 % (0 % inverted) when the open value is `tilt_max` |
| `Commands.CloseCoverTiltIntended` | homeassistant/components/cover/mqtt.py:413-420 | the corrected tilt close: publishes the tilt-closed value; when tilt-optimistic only the tilt changes, to a percentage in 0..100 that is 0 % (100 % inverted) when the closed value is `tilt_min` |
| `Commands.PositionPayload` | homeassistant/components/cover/mqtt.py:447-449 | the percentage goes out unconverted when either end of the cover range has its default; otherwise the native value nearest to that percentage goes out, at an even offset from `position_closed` on an exact half |
| `Commands.SetCoverPosition` | homeassistant/components/cover/mqtt.py:435-456 | without a position nothing happens; with one, the set-position topic receives the rendering, or the raw percentage when rendering fails, or the native payload; when optimistic the cover takes the percentage and is closed iff it equals the native `position_closed`; otherwise only a template failure changes the cover, making closed unknown without an update |
| `Commands.SetCoverPositionIntended` | homeassistant/components/cover/mqtt.py:435-456 | the corrected command: without a template it publishes the native value nearest to the requested percentage (the even offset on an exact half); with a template it publishes the rendering, or the raw percentage when rendering fails; when optimistic the cover takes the percentage and is closed iff it is 0; otherwise only a template failure changes the cover, making closed unknown without an update |
| `Reconciliation.OpenCloseMatchStateReports` | homeassistant/components/cover/mqtt.py:363-393 | without a position topic, optimistic open and close leave the cover exactly as the state callback would on the open and the closed token |
| `Reconciliation.OpenCloseMatchPositionReports` | homeassistant/components/cover/mqtt.py:371-392 | with a position topic, optimistic open and close leave the cover exactly as the position callback would on a report of `position_open` and `position_closed` |
| `Reconciliation.TiltOpenCloseMatchReports` | homeassistant/components/cover/mqtt.py:251-258 | on the non-inverted tilt range 0..100, with the configured open and closed values both inside 0..100, optimistic tilt open and close leave the cover exactly as the tilt callback would on a report of those values |
| `Reconciliation.IntendedTiltMatchesReports` | homeassistant/components/cover/mqtt.py:404-420 | on every ascending tilt range containing the configured values, the corrected tilt open and close leave the cover, and schedule the update, exactly as the tilt callback would on a report of those values |
| `Reconciliation.TiltCommandRoundTrip` | homeassistant/components/cover/mqtt.py:422-433 | on an ascending tilt range at least 100 wide, a tilt command echoed back on the tilt status topic restores the requested percentage and schedules one update |
| `Reconciliation.DefaultRangeIsIdentity` | homeassistant/components/cover/mqtt.py:496-499 | on the default range 0..100 the conversion from a percentage is the identity |
| `Reconciliation.IntendedPayload` | homeassistant/components/cover/mqtt.py:447-452 | without a template the corrected command publishes the converted percentage on every range |
| `Reconciliation.PositionReport` | homeassistant/components/cover/mqtt.py:283-287 | the decimal spelling of a native value, reported on the position topic, sets the position to its percentage and closed iff that is 0 |
| `Reconciliation.IntendedSetPositionRoundTrip` | homeassistant/components/cover/mqtt.py:435-456 | on a range at least 100 wide, the value the corrected command publishes, reported back, gives the requested percentage and the matching closed flag, which is also what the optimistic branch assumed |
| `Reconciliation.SetCoverPositionAgreesWithIntended` | homeassistant/components/cover/mqtt.py:435-456 | the command as written equals the corrected one when a template is set or the range ends are both default or both not, and the cover is not optimistic or `position_closed` is 0 |
| `Reconciliation.SetCoverPositionRoundTrip` | homeassistant/components/cover/mqtt.py:435-456 | under those conditions, without templates and on a range at least 100 wide, the value the command as written publishes reads back as the requested percentage and closed flag, and an optimistic guess equals that report |
| `Findings.ConversionSkipped` | homeassistant/components/cover/mqtt.py:447-449 | on 0..200 a request of 42 % publishes 42, which reads back as 21 %; the corrected command publishes 84 |
| `Findings.ClosedFlagMismatch` | homeassistant/components/cover/mqtt.py:453-455 | on 10..110, moving optimistically to 0 % leaves the cover not closed, and moving to 10 % marks it closed; a report of native 10 reads 0 % and closed; the corrected command marks 0 % closed |
| `Findings.TiltCloseGuessUnconverted` | homeassistant/components/cover/mqtt.py:413-420 | on the inverted tilt range 0..100 with closed value 0, a set-up cover without a tilt status topic stores a tilt of 0 after tilt close, a report of 0 would read 100, and the corrected command stores 100 |
| `Findings.TiltGuessUnconverted` | homeassistant/components/cover/mqtt.py:404-411 | on the tilt range 0..200 with open value 200, a set-up cover without a tilt status topic claims a tilt of 200 after tilt open, a report of 200 would read 100, and the corrected command stores 100 |

## Findings

| source | as written | input that shows it | evidently intended | confidence | as-written member | corrected member |
|---|---|---|---|---|---|---|
| homeassistant/components/cover/mqtt.py:447 | the percentage is converted only when `position_open != 100 and position_closed != 0` | `position_open` 200, `position_closed` 0, position 42: publishes 42, which the device reports back as 21 % | convert unless the range is exactly the default 0..100 (`or`) | medium, not executed | `Findings.ConversionSkipped` (with `Commands.SetCoverPosition`) | `Commands.SetCoverPositionIntended`, proved by `Reconciliation.IntendedSetPositionRoundTrip` |
| homeassistant/components/cover/mqtt.py:454 | the optimistic closed flag compares the requested percentage with the native `position_closed` | range 10..110, optimistic, position 0: the cover is not marked closed, yet a report of native 10 reads 0 % and closed | compare with 0 %, as the position callback does at line 287 | medium, not executed | `Findings.ClosedFlagMismatch` (with `Commands.SetCoverPosition`) | `Commands.SetCoverPositionIntended`, proved by `Reconciliation.IntendedSetPositionRoundTrip` |
| homeassistant/components/cover/mqtt.py:410 | optimistic tilt open (and close, line 419) stores the configured native tilt value, where the tilt callback and `current_cover_tilt_position` work in percent | tilt range 0..200, `tilt_opened_value` 200, no tilt status topic: after tilt open the cover reports a tilt of 200; inverted tilt range 0..100, `tilt_closed_value` 0: after tilt close it reports 0, where a report of 0 reads 100 | store `find_percentage_in_range` of the configured value, as the tilt callback does at line 256 | medium, not executed | `Findings.TiltGuessUnconverted` and `Findings.TiltCloseGuessUnconverted` (with `Commands.OpenCoverTilt` and `Commands.CloseCoverTilt`) | `Commands.OpenCoverTiltIntended` and `Commands.CloseCoverTiltIntended`, proved by `Reconciliation.IntendedTiltMatchesReports` |

## Left out

- MQTT subscribe and publish, QoS and retain flags, and
  `async_schedule_update_ha_state`. They are transport and host side effects.
  They appear only as the `published` and `notified` fields of a `Step`.
- Template rendering internals (`async_render_with_possible_json_value`,
  `async_render`). These are Jinja calls outside this file. They are opaque
  functions, and the set-position template sees only the requested position,
  not the other keyword arguments.
- The availability, discovery-update and device-info mix-ins,
  `async_setup_platform`, `async_setup_entry` and `_async_setup_entity`. These
  are lifecycle and discovery plumbing.
- The voluptuous schema validators other than `validate_options`. The schema's
  defaults appear only as `DefaultPositionOpen` and `DefaultPositionClosed`.
- Floating point. `float(offset) / current_range * 100.0` and
  `current_range * (percentage / 100.0)` are computed exactly, so IEEE-754
  artefacts near .5 are not modelled. Requested positions are integers: the
  service schema outside this file coerces them to `int`.
- Unicode digits. `str.isnumeric` is modelled as a non-empty string of ASCII
  digits.
- The `name`, `unique_id`, `assumed_state`, `is_closed`,
  `current_cover_position` and `current_cover_tilt_position` getters, which
  return stored fields, and `should_poll`, which always returns `False`.
- The feature bit values (1, 2, 4, 8, 16, 32, 64, 128) belong to
  `homeassistant/components/cover/__init__.py`, which is not part of this
  model.
- `RangeMap.ToPercentage` requires `max != min`, where Python would raise
  `ZeroDivisionError`. The handlers require it only when they reach the
  division.
- Inbound.PositionMessageReceived: accepts an all-digit payload of any length
  and sets a percentage. In Python, when the value, or
  (value - min) / (max - min) * 100, lies beyond the largest float (about
  1.8e308), the quotient is infinite, `round` raises `OverflowError` and the
  callback changes nothing. The same goes for `Inbound.TiltUpdated`, where the
  payload must also lie within `tilt_min..tilt_max`.
- Inbound.PositionMessageReceived: values above 2^53 are converted exactly,
  where `float()` loses precision. The same goes for `Inbound.TiltUpdated`.
- Logging. The warnings for a rejected state payload (mqtt.py:272) and a
  rejected position payload (mqtt.py:289-291), and the error logged when the
  set-position template fails (mqtt.py:445), are dropped. A rejected tilt
  payload is not logged in the source either.

=== FILE: commands.dfy ===
/**
 * The command methods: each publishes one payload and, in the matching
 * optimistic mode, updates the cover straight away.
 */
module Commands {
  import opened Wrappers
  import opened Rounding
  import opened RangeMap
  import opened CoverConfig
  import opened CoverState

  /** `async_open_cover` */
  function OpenCover(cfg: Config, c: Cover): (st: Step)
    requires c.optimistic && Truthy(cfg.positionTopic) ==> cfg.positionOpen != cfg.positionClosed
    ensures st.published == Some(Publication(CommandTopic, Text(cfg.payloadOpen)))
    ensures st.notified == c.optimistic
    ensures !c.optimistic ==> st.cover == c
    // optimistically the cover is open and, with a position topic, fully open
    ensures c.optimistic ==>
      st.cover == c.(closed := Some(false), position := if Truthy(cfg.positionTopic) then Some(100) else c.position)
  {
    var published := Some(Publication(CommandTopic, Text(cfg.payloadOpen)));
    if c.optimistic then
      var position := if Truthy(cfg.positionTopic)
                      then Some(ToPercentage(RangeOf(cfg, CoverRange), cfg.positionOpen))
                      else c.position;
      Step(c.(closed := Some(false), position := position), true, published)
    else
      Step(c, false, published)
  }

  /** `async_close_cover` */
  function CloseCover(cfg: Config, c: Cover): (st: Step)
    requires c.optimistic && Truthy(cfg.positionTopic) ==> cfg.positionOpen != cfg.positionClosed
    ensures st.published == Some(Publication(CommandTopic, Text(cfg.payloadClose)))
    ensures st.notified == c.optimistic
    ensures !c.optimistic ==> st.cover == c
    // optimistically the cover is closed and, with a position topic, at 0 %
    ensures c.optimistic ==>
      st.cover == c.(closed := Some(true), position := if Truthy(cfg.positionTopic) then Some(0) else c.position)
  {
    var published := Some(Publication(CommandTopic, Text(cfg.payloadClose)));
    if c.optimistic then
      var position := if Truthy(cfg.positionTopic)
                      then Some(ToPercentage(RangeOf(cfg, CoverRange), cfg.positionClosed))
                      else c.position;
      Step(c.(closed := Some(true), position := position), true, published)
    else
      Step(c, false, published)
  }

  /** `async_stop_cover`: publishes the stop payload and never touches the cover. */
  function StopCover(cfg: Config, c: Cover): (st: Step)
    ensures st.published == Some(Publication(CommandTopic, Text(cfg.payloadStop)))
    ensures st.cover == c && !st.notified
  {
    Step(c, false, Some(Publication(CommandTopic, Text(cfg.payloadStop))))
  }

  /** `async_open_cover_tilt` */
  function OpenCoverTilt(cfg: Config, c: Cover): (st: Step)
    ensures st.published == Some(Publication(TiltCommandTopic, Number(cfg.tiltOpenPosition)))
    ensures st.notified == c.tiltOptimistic
    // the configured value is stored as it is, not converted to a percentage
    ensures st.cover == (if c.tiltOptimistic then c.(tilt := TiltAt(cfg.tiltOpenPosition)) else c)
  {
    var published := Some(Publication(TiltCommandTopic, Number(cfg.tiltOpenPosition)));
    if c.tiltOptimistic then Step(c.(tilt := TiltAt(cfg.tiltOpenPosition)), true, published)
    else Step(c, false, published)
  }

  /** `async_close_cover_tilt` */
  function CloseCoverTilt(cfg: Config, c: Cover): (st: Step)
    ensures st.published == Some(Publication(TiltCommandTopic, Number(cfg.tiltClosedPosition)))
    ensures st.notified == c.tiltOptimistic
    ensures st.cover == (if c.tiltOptimistic then c.(tilt := TiltAt(cfg.tiltClosedPosition)) else c)
  {
    var published := Some(Publication(TiltCommandTopic, Number(cfg.tiltClosedPosition)));
    if c.tiltOptimistic then Step(c.(tilt := TiltAt(cfg.tiltClosedPosition)), true, published)
    else Step(c, false, published)
  }

  /**
   * `async_open_cover_tilt` as evidently intended: the optimistic tilt is the
   * configured open value read as a percentage of the tilt range, as the
   * tilt status callback would read it.
   */
  function OpenCoverTiltIntended(cfg: Config, c: Cover): (st: Step)
    requires c.tiltOptimistic ==> cfg.tiltMin != cfg.tiltMax
    ensures st.published == Some(Publication(TiltCommandTopic, Number(cfg.tiltOpenPosition)))
    ensures st.notified == c.tiltOptimistic
    ensures !c.tiltOptimistic ==> st.cover == c
    // the stored tilt is a percentage, 100 % when the open value is tilt_max
    ensures c.tiltOptimistic ==>
      && st.cover == c.(tilt := st.cover.tilt)
      && st.cover.tilt.TiltAt?
      && 0 <= st.cover.tilt.level <= 100
      && (cfg.tiltOpenPosition == cfg.tiltMax ==> st.cover.tilt.level == (if cfg.tiltInvert then 0 else 100))
  {
    var published := Some(Publication(TiltCommandTopic, Number(cfg.tiltOpenPosition)));
    if c.tiltOptimistic then
      var level := ToPercentage(RangeOf(cfg, TiltRange), cfg.tiltOpenPosition);
      Step(c.(tilt := TiltAt(level)), true, published)
    else
      Step(c, false, published)
  }

  /** `async_close_cover_tilt` as evidently intended, like `OpenCoverTiltIntended`. */
  function CloseCoverTiltIntended(cfg: Config, c: Cover): (st: Step)
    requires c.tiltOptimistic ==> cfg.tiltMin != cfg.tiltMax
    ensures st.published == Some(Publication(TiltCommandTopic, Number(cfg.tiltClosedPosition)))
    ensures st.notified == c.tiltOptimistic
    ensures !c.tiltOptimistic ==> st.cover == c
    // the stored tilt is a percentage, 0 % when the closed value is tilt_min
    ensures c.tiltOptimistic ==>
      && st.cover == c.(tilt := st.cover.tilt)
      && st.cover.tilt.TiltAt?
      && 0 <= st.cover.tilt.level <= 100
      && (cfg.tiltClosedPosition == cfg.tiltMin ==> st.cover.tilt.level == (if cfg.tiltInvert then 100 else 0))
  {
    var published := Some(Publication(TiltCommandTopic, Number(cfg.tiltClosedPosition)));
    if c.tiltOptimistic then
      var level := ToPercentage(RangeOf(cfg, TiltRange), cfg.tiltClosedPosition);
      Step(c.(tilt := TiltAt(level)), true, published)
    else
      Step(c, false, published)
  }

  /**
   * `async_set_cover_tilt_position`; `request` is the optional
   * `tilt_position` argument.
   */
  function SetCoverTiltPosition(cfg: Config, c: Cover, request: Option<int>): (st: Step)
    // the cover is never changed, whatever is requested
    ensures st.cover == c && !st.notified
    ensures request.None? ==> st.published.None?
    // the tilt command carries the native value nearest to the requested
    // percentage of the tilt range, counted from tilt_max when inverted
    ensures request.Some? ==>
      && st.published.Some?
      && st.published.value.channel == TiltCommandTopic
      && st.published.value.payload.Number?
      && var level := st.published.value.payload.value;
         var span := cfg.tiltMax - cfg.tiltMin;
         && (!cfg.tiltInvert ==> 2 * Abs(100 * (level - cfg.tiltMin) - span * request.value) <= 100)
         && (cfg.tiltInvert ==> 2 * Abs(100 * (cfg.tiltMax - level) - span * request.value) <= 100)
         // on an exact half the distance from the 0 % end is even
         && (!cfg.tiltInvert && 2 * Abs(100 * (level - cfg.tiltMin) - span * request.value) == 100 ==>
               (level - cfg.tiltMin) % 2 == 0)
         && (cfg.tiltInvert && 2 * Abs(100 * (cfg.tiltMax - level) - span * request.value) == 100 ==>
               (cfg.tiltMax - level) % 2 == 0)
         && (0 <= request.value <= 100 ==> Between(cfg.tiltMin, level, cfg.tiltMax))
  {
    match request
    case None => Step(c, false, None)
    case Some(pct) =>
      var level := FromPercentage(RangeOf(cfg, TiltRange), pct);
      Step(c, false, Some(Publication(TiltCommandTopic, Number(level))))
  }

  /** What the set-position template produces: its rendering, or a failure. */
  function TemplateOutcome(cfg: Config, pct: int): Option<Option<string>>
  {
    match cfg.setPositionTemplate
    case None => None
    case Some(render) => Some(render(pct))
  }

  /**
   * The payload `async_set_cover_position` publishes when no template is
   * configured: the percentage is converted to the native range only when
   * BOTH ends differ from their defaults.
   */
  function PositionPayload(cfg: Config, pct: int): (n: int)
    ensures cfg.positionOpen == DefaultPositionOpen || cfg.positionClosed == DefaultPositionClosed ==> n == pct
    ensures cfg.positionOpen != DefaultPositionOpen && cfg.positionClosed != DefaultPositionClosed ==>
      2 * Abs(100 * (n - cfg.positionClosed) - (cfg.positionOpen - cfg.positionClosed) * pct) <= 100
    // on an exact half the distance from the closed end is even
    ensures (&& cfg.positionOpen != DefaultPositionOpen
             && cfg.positionClosed != DefaultPositionClosed
             && 2 * Abs(100 * (n - cfg.positionClosed) - (cfg.positionOpen - cfg.positionClosed) * pct) == 100)
      ==> (n - cfg.positionClosed) % 2 == 0
  {
    if cfg.positionOpen != DefaultPositionOpen && cfg.positionClosed != DefaultPositionClosed then
      FromPercentage(RangeOf(cfg, CoverRange), pct)
    else
      pct
  }

  /**
   * `async_set_cover_position` as written; `request` is the optional
   * `position` argument.
   */
  function SetCoverPosition(cfg: Config, c: Cover, request: Option<int>): (st: Step)
    // without a position nothing happens at all
    ensures request.None? ==> st == Step(c, false, None)
    // with one, the set-position topic always receives a payload: the
    // rendering, the unrendered percentage if rendering failed, or the
    // native value
    ensures request.Some? ==>
      var pct := request.value;
      st.published == Some(Publication(SetPositionTopic,
        match TemplateOutcome(cfg, pct)
        case Some(Some(text)) => Text(text)
        case Some(None) => Number(pct)
        case None => Number(PositionPayload(cfg, pct))))
    // optimistically the cover takes the requested percentage and is closed
    // when it equals the NATIVE closed position
    ensures request.Some? && c.optimistic ==>
      st.notified && st.cover == c.(closed := Some(request.value == cfg.positionClosed), position := Some(request.value))
    // otherwise only a template failure changes the cover: it forgets
    // whether it is closed, without scheduling an update
    ensures request.Some? && !c.optimistic ==>
      !st.notified && st.cover == (if TemplateOutcome(cfg, request.value) == Some(None) then c.(closed := None) else c)
  {
    match request
    case None => Step(c, false, None)
    case Some(pct) =>
      var (payload, afterTemplate) :=
        match TemplateOutcome(cfg, pct)
        case Some(Some(text)) => (Text(text), c)
        case Some(None) => (Number(pct), c.(closed := None))
        case None => (Number(PositionPayload(cfg, pct)), c);
      var published := Some(Publication(SetPositionTopic, payload));
      if c.optimistic then
        Step(afterTemplate.(closed := Some(pct == cfg.positionClosed), position := Some(pct)), true, published)
      else
        Step(afterTemplate, false, published)
  }

  /**
   * `async_set_cover_position` as evidently intended: the percentage is
   * converted unless the range is exactly the default 0..100, and the
   * optimistic closed flag compares the percentage with 0 %, as the position
   * callback does.
   */
  function SetCoverPositionIntended(cfg: Config, c: Cover, request: Option<int>): (st: Step)
    ensures request.None? ==> st == Step(c, false, None)
    // without a template the payload is the native value nearest to the
    // requested percentage of the cover range
    ensures request.Some? && cfg.setPositionTemplate.None? ==>
      && st.published.Some?
      && st.published.value.channel == SetPositionTopic
      && st.published.value.payload.Number?
      && 2 * Abs(100 * (st.published.value.payload.value - cfg.positionClosed)
                 - (cfg.positionOpen - cfg.positionClosed) * request.value) <= 100
    // on an exact half the distance from the closed end is even
    ensures (&& request.Some? && cfg.setPositionTemplate.None?
             && st.published.Some? && st.published.value.payload.Number?
             && 2 * Abs(100 * (st.published.value.payload.value - cfg.positionClosed)
                        - (cfg.positionOpen - cfg.positionClosed) * request.value) == 100)
      ==> (st.published.value.payload.value - cfg.positionClosed) % 2 == 0
    // with a template the payload is its rendering, or the unrendered
    // percentage when rendering fails
    ensures request.Some? && cfg.setPositionTemplate.Some? ==>
      var pct := request.value;
      st.published == Some(Publication(SetPositionTopic,
        match TemplateOutcome(cfg, pct)
        case Some(Some(text)) => Text(text)
        case _ => Number(pct)))
    ensures request.Some? && c.optimistic ==>
      st.notified && st.cover == c.(closed := Some(request.value == 0), position := Some(request.value))
    // otherwise only a template failure changes the cover: it forgets
    // whether it is closed, without scheduling an update
    ensures request.Some? && !c.optimistic ==>
      !st.notified && st.cover == (if TemplateOutcome(cfg, request.value) == Some(None) then c.(closed := None) else c)
  {
    match request
    case None => Step(c, false, None)
    case Some(pct) =>
      var (payload, afterTemplate) :=
        match TemplateOutcome(cfg, pct)
        case Some(Some(text)) => (Text(text), c)
        case Some(None) => (Number(pct), c.(closed := None))
        case None =>
          if cfg.positionOpen != DefaultPositionOpen || cfg.positionClosed != DefaultPositionClosed then
            (Number(FromPercentage(RangeOf(cfg, CoverRange), pct)), c)
          else
            (Number(pct), c);
      var published := Some(Publication(SetPositionTopic, payload));
      if c.optimistic then
        Step(afterTemplate.(closed := Some(pct == DefaultPositionClosed), position := Some(pct)), true, published)
      else
        Step(afterTemplate, false, published)
  }
}

=== FILE: cover_config.dfy ===
/**
 * The configuration an MQTT cover is built from, the ranges derived from it,
 * the `validate_options` rule and the `supported_features` bitmask.
 */
module CoverConfig {
  import opened Wrappers
  import opened RangeMap

  /** The value template: renders an inbound payload, or fails. */
  type ValueTemplate = string -> Option<string>

  /** The set-position template: renders the requested position, or fails. */
  type PositionTemplate = int -> Option<string>

  const DefaultPositionOpen: int := 100
  const DefaultPositionClosed: int := 0

  /** One field per constructor argument of the cover that the core reads. */
  datatype Config = Config(
    stateTopic: Option<string>,
    positionTopic: Option<string>,
    commandTopic: Option<string>,
    tiltCommandTopic: Option<string>,
    tiltStatusTopic: Option<string>,
    setPositionTopic: Option<string>,
    stateOpen: string,
    stateClosed: string,
    positionOpen: int,
    positionClosed: int,
    payloadOpen: string,
    payloadClose: string,
    payloadStop: string,
    optimistic: bool,
    valueTemplate: Option<ValueTemplate>,
    tiltOpenPosition: int,
    tiltClosedPosition: int,
    tiltMin: int,
    tiltMax: int,
    tiltOptimistic: bool,
    tiltInvert: bool,
    setPositionTemplate: Option<PositionTemplate>)

  /** Python truthiness of an optional topic: present and non-empty. */
  predicate Truthy(topic: Option<string>)
  {
    topic.Some? && topic.value != ""
  }

  /** Which of the two ranges a conversion uses (`COVER_PAYLOAD` / `TILT_PAYLOAD`). */
  datatype RangeKind = CoverRange | TiltRange

  /** The range a conversion of the given kind reads from the configuration. */
  function RangeOf(cfg: Config, kind: RangeKind): (s: RangeSpec)
    // the cover range runs from the closed to the open position and is never inverted
    ensures kind == CoverRange ==> s.min == cfg.positionClosed && s.max == cfg.positionOpen && !s.invert
    // only the tilt range follows the tilt inversion flag
    ensures kind == TiltRange ==> s.min == cfg.tiltMin && s.max == cfg.tiltMax && s.invert == cfg.tiltInvert
  {
    match kind
    case CoverRange => RangeSpec(cfg.positionClosed, cfg.positionOpen, false)
    case TiltRange => RangeSpec(cfg.tiltMin, cfg.tiltMax, cfg.tiltInvert)
  }

  /** `validate_options`: a set-position topic needs a position topic. */
  function ValidateOptions(cfg: Config): (r: Result<Config, string>)
    ensures r.Failure? <==> cfg.setPositionTopic.Some? && cfg.positionTopic.None?
    ensures r.Success? ==> r.value == cfg
  {
    if cfg.setPositionTopic.Some? && cfg.positionTopic.None? then
      Failure("set_position_topic must be set together with position_topic.")
    else
      Success(cfg)
  }

  /** The capabilities a cover can advertise. */
  datatype Feature =
    | Open | Close | SetPosition | Stop
    | OpenTilt | CloseTilt | StopTilt | SetTiltPosition

  /** The bit of each feature in the cover component's feature mask. */
  function Bit(f: Feature): bv8
  {
    match f
    case Open => 1
    case Close => 2
    case SetPosition => 4
    case Stop => 8
    case OpenTilt => 16
    case CloseTilt => 32
    case StopTilt => 64
    case SetTiltPosition => 128
  }

  const OpenCloseFeatures: bv8 := Bit(Open) | Bit(Close) | Bit(Stop)
  const TiltFeatures: bv8 := Bit(OpenTilt) | Bit(CloseTilt) | Bit(StopTilt) | Bit(SetTiltPosition)

  predicate Supports(mask: bv8, f: Feature)
  {
    mask & Bit(f) != 0
  }

  /** Which topic enables which feature. */
  predicate Enabled(cfg: Config, f: Feature)
  {
    match f
    case Open | Close | Stop => cfg.commandTopic.Some?
    case SetPosition => cfg.setPositionTopic.Some?
    case OpenTilt | CloseTilt | StopTilt | SetTiltPosition => cfg.tiltCommandTopic.Some?
  }

  /** `supported_features`. */
  function SupportedFeatures(cfg: Config): (mask: bv8)
    ensures forall f :: Supports(mask, f) <==> Enabled(cfg, f)
  {
    var base: bv8 := if cfg.commandTopic.Some? then OpenCloseFeatures else 0;
    var withPosition := if cfg.setPositionTopic.Some? then base | Bit(SetPosition) else base;
    if cfg.tiltCommandTopic.Some? then withPosition | TiltFeatures else withPosition
  }
}

=== FILE: cover_state.dfy ===
/**
 * What the cover believes about the device, the modes fixed when it is set
 * up, and the result every handler returns.
 */
module CoverState {
  import opened Wrappers
  import opened CoverConfig

  /**
   * `_tilt_value`: `None` before set-up, the string `unknown` once a tilt
   * status topic is subscribed, otherwise a number.
   */
  datatype TiltValue = TiltNone | TiltUnknown | TiltAt(level: int)

  /**
   * `_state` (true means closed, `None` unknown), `_position`, `_tilt_value`
   * and the two mode flags `_optimistic` and `_tilt_optimistic`.
   */
  datatype Cover = Cover(
    closed: Option<bool>,
    position: Option<int>,
    tilt: TiltValue,
    optimistic: bool,
    tiltOptimistic: bool)

  /** Which of the position and state handlers is subscribed. */
  datatype Feed = PositionFeed | StateFeed | NoFeed

  datatype Attached = Attached(cover: Cover, feed: Feed)

  /** The outbound topics. */
  datatype Channel = CommandTopic | SetPositionTopic | TiltCommandTopic

  /** A published payload: a configured or rendered string, or a number. */
  datatype Payload = Text(text: string) | Number(value: int)

  datatype Publication = Publication(channel: Channel, payload: Payload)

  /**
   * The effect of one handler: the new cover, whether a state update was
   * scheduled, and what was published.
   */
  datatype Step = Step(cover: Cover, notified: bool, published: Option<Publication>)

  /**
   * The state `MqttCover.__init__` leaves behind: nothing is known yet, the
   * cover is optimistic when asked to be or when neither report topic is
   * given at all, and the tilt flag is taken as configured.
   */
  function Init(cfg: Config): (c: Cover)
    ensures c.closed.None? && c.position.None? && c.tilt == TiltNone
    ensures c.optimistic <==> cfg.optimistic || (cfg.stateTopic.None? && cfg.positionTopic.None?)
    ensures c.tiltOptimistic == cfg.tiltOptimistic
  {
    Cover(
      closed := None,
      position := None,
      tilt := TiltNone,
      optimistic := cfg.optimistic || (cfg.stateTopic.None? && cfg.positionTopic.None?),
      tiltOptimistic := cfg.tiltOptimistic)
  }

  /**
   * The mode and subscription choices of `async_added_to_hass`: the position
   * callback whenever the position topic is truthy, the state callback only
   * without one, and forced optimism when neither is subscribed; tilt optimism
   * is decided by the tilt status topic alone, and a subscribed tilt becomes
   * unknown. Closed flag and position are left as they were.
   */
  function AddedToHass(cfg: Config, c: Cover): (a: Attached)
    ensures a.feed == PositionFeed <==> Truthy(cfg.positionTopic)
    ensures a.feed == StateFeed <==> !Truthy(cfg.positionTopic) && Truthy(cfg.stateTopic)
    ensures a.cover.optimistic <==> c.optimistic || a.feed == NoFeed
    ensures a.cover.tiltOptimistic <==> cfg.tiltStatusTopic.None?
    ensures a.cover.tilt == (if cfg.tiltStatusTopic.None? then c.tilt else TiltUnknown)
    ensures a.cover.closed == c.closed && a.cover.position == c.position
  {
    var feed := if Truthy(cfg.positionTopic) then PositionFeed
                else if Truthy(cfg.stateTopic) then StateFeed
                else NoFeed;
    var forced := if feed == NoFeed then c.(optimistic := true) else c;
    var tilted := if cfg.tiltStatusTopic.None? then forced.(tiltOptimistic := true)
                  else forced.(tiltOptimistic := false, tilt := TiltUnknown);
    Attached(tilted, feed)
  }

  /**
   * A cover as it stands once constructed and attached. Optimism is the
   * configured flag or the absence of both usable report topics; tilt
   * optimism ignores its flag; nothing is known yet, except that a subscribed
   * tilt is unknown; and a cover that is not optimistic is always fed by one
   * of the two report callbacks.
   */
  function Setup(cfg: Config): (a: Attached)
    ensures a.cover.optimistic <==> cfg.optimistic || (!Truthy(cfg.stateTopic) && !Truthy(cfg.positionTopic))
    ensures a.cover.tiltOptimistic <==> cfg.tiltStatusTopic.None?
    ensures a.cover.tilt == (if cfg.tiltStatusTopic.None? then TiltNone else TiltUnknown)
    ensures a.cover.closed.None? && a.cover.position.None?
    ensures a.feed == PositionFeed <==> Truthy(cfg.positionTopic)
    ensures a.feed == StateFeed <==> !Truthy(cfg.positionTopic) && Truthy(cfg.stateTopic)
    ensures !a.cover.optimistic ==> a.feed != NoFeed
  {
    AddedToHass(cfg, Init(cfg))
  }

  /** Attaching twice changes nothing: the second pass finds its choices made. */
  lemma AddedToHassIdempotent(cfg: Config, c: Cover)
    ensures AddedToHass(cfg, AddedToHass(cfg, c).cover) == AddedToHass(cfg, c)
  {
  }
}

=== FILE: digits.dfy ===
/**
 * The payload checks the cover applies to inbound text: `str.isnumeric()`
 * restricted to ASCII decimal digits, and `int(...)` of such a string.
 */
module Digits {

  predicate IsDigit(c: char)
  {
    '0' <= c <= '9'
  }

  /** `payload.isnumeric()`: a non-empty string of decimal digits. */
  predicate IsNumeric(s: string)
  {
    |s| > 0 && forall i :: 0 <= i < |s| ==> IsDigit(s[i])
  }

  function DigitValue(c: char): nat
    requires IsDigit(c)
  {
    c as int - '0' as int
  }

  function DigitChar(d: nat): (c: char)
    requires d < 10
    ensures IsDigit(c) && DigitValue(c) == d
  {
    (d + '0' as int) as char
  }

  /** `int(payload)` for a numeric payload; leading zeros are allowed. */
  function Value(s: string): nat
    requires forall i :: 0 <= i < |s| ==> IsDigit(s[i])
    decreases |s|
  {
    if |s| == 0 then 0 else 10 * Value(s[..|s| - 1]) + DigitValue(s[|s| - 1])
  }

  /** `str(n)` for a natural number: its shortest decimal spelling. */
  function Show(n: nat): (s: string)
    ensures IsNumeric(s)
    ensures n >= 10 ==> s[0] != '0'
    decreases n
  {
    if n < 10 then [DigitChar(n)] else Show(n / 10) + [DigitChar(n % 10)]
  }

  /** Reading back the decimal spelling of a number gives the number. */
  lemma {:induction false} ValueOfShow(n: nat)
    ensures Value(Show(n)) == n
  {
    var s := Show(n);
    if n >= 10 {
      ValueOfShow(n / 10);
      assert s[..|s| - 1] == Show(n / 10);
    }
  }
}

=== FILE: findings.dfy ===
/**
 * Concrete inputs on which a command as written disagrees with the rest of
 * the cover: two for `async_set_cover_position` and one each for
 * `async_open_cover_tilt` and `async_close_cover_tilt`, each with the
 * corrected command on the same input.
 */
module Findings {
  import opened Wrappers
  import opened Rounding
  import opened Digits
  import opened RangeMap
  import opened CoverConfig
  import opened CoverState
  import opened Inbound
  import opened Commands

  /** A cover with only command, position and set-position topics and the given native range. */
  function RangeConfig(positionOpen: int, positionClosed: int): Config
  {
    Config(
      stateTopic := None,
      positionTopic := Some("cover/position"),
      commandTopic := Some("cover/set"),
      tiltCommandTopic := None,
      tiltStatusTopic := None,
      setPositionTopic := Some("cover/position/set"),
      stateOpen := "open",
      stateClosed := "closed",
      positionOpen := positionOpen,
      positionClosed := positionClosed,
      payloadOpen := "OPEN",
      payloadClose := "CLOSE",
      payloadStop := "STOP",
      optimistic := false,
      valueTemplate := None,
      tiltOpenPosition := 100,
      tiltClosedPosition := 0,
      tiltMin := 0,
      tiltMax := 100,
      tiltOptimistic := false,
      tiltInvert := false,
      setPositionTemplate := None)
  }

  /**
   * With only one end of the range at its default the percentage is sent
   * unconverted: 42 % of 0..200 goes out as 42, which the device then
   * reports back as 21 %. The corrected command sends 84.
   */
  lemma ConversionSkipped()
    ensures
      var cfg := RangeConfig(200, 0);
      var c := Setup(cfg).cover;
      && SetCoverPosition(cfg, c, Some(42)).published == Some(Publication(SetPositionTopic, Number(42)))
      && PositionMessageReceived(cfg, c, "42").cover.position == Some(21)
      && SetCoverPositionIntended(cfg, c, Some(42)).published == Some(Publication(SetPositionTopic, Number(84)))
  {
    var s := RangeOf(RangeConfig(200, 0), CoverRange);
    assert Value("42") == 42;
    assert ToPercentage(s, 42) == 21 by {
      RoundExact(21, 200);
    }
    assert FromPercentage(s, 42) == 84 by {
      RoundExact(84, 100);
    }
  }

  /**
   * The optimistic closed flag compares a percentage with the native closed
   * position: on the range 10..110, moving to 0 % leaves the cover "open"
   * although a report of the native closed position 10 reads 0 % and closed,
   * and moving to 10 % marks it closed. The corrected command marks 0 % closed.
   */
  lemma ClosedFlagMismatch()
    ensures
      var cfg := RangeConfig(110, 10).(optimistic := true);
      var c := Setup(cfg).cover;
      && SetCoverPosition(cfg, c, Some(0)).cover.position == Some(0)
      && SetCoverPosition(cfg, c, Some(0)).cover.closed == Some(false)
      && SetCoverPosition(cfg, c, Some(10)).cover.closed == Some(true)
      && PositionMessageReceived(cfg, c, "10").cover.position == Some(0)
      && PositionMessageReceived(cfg, c, "10").cover.closed == Some(true)
      && SetCoverPositionIntended(cfg, c, Some(0)).cover.closed == Some(true)
  {
    var cfg := RangeConfig(110, 10).(optimistic := true);
    var c := Setup(cfg).cover;
    assert c.optimistic;
    var toZero := SetCoverPosition(cfg, c, Some(0));
    assert toZero.cover == c.(closed := Some(false), position := Some(0));
    var toTen := SetCoverPosition(cfg, c, Some(10));
    assert toTen.cover == c.(closed := Some(true), position := Some(10));
    var intended := SetCoverPositionIntended(cfg, c, Some(0));
    assert intended.cover == c.(closed := Some(true), position := Some(0));
    var s := RangeOf(cfg, CoverRange);
    assert s == RangeSpec(10, 110, false);
    assert Value("10") == 10;
    assert AtOrBeyondMin(s, 10);
    var report := PositionMessageReceived(cfg, c, "10");
    assert report.cover == c.(position := Some(0), closed := Some(true));
  }

  /**
   * Optimistic tilt open stores the configured native value where every
   * other path stores a percentage: on the tilt range 0..200 with open value
   * 200 the cover claims a tilt of 200 %, while a report of 200 reads 100 %.
   * The corrected command stores 100.
   */
  lemma TiltGuessUnconverted()
    ensures
      var cfg := RangeConfig(100, 0).(tiltCommandTopic := Some("cover/tilt/set"), tiltMax := 200, tiltOpenPosition := 200);
      var c := Setup(cfg).cover;
      && c.tiltOptimistic
      && OpenCoverTilt(cfg, c).cover.tilt == TiltAt(200)
      && TiltUpdated(cfg, c, "200").cover.tilt == TiltAt(100)
      && OpenCoverTiltIntended(cfg, c).cover.tilt == TiltAt(100)
  {
    var cfg := RangeConfig(100, 0).(tiltCommandTopic := Some("cover/tilt/set"), tiltMax := 200, tiltOpenPosition := 200);
    var s := RangeOf(cfg, TiltRange);
    assert s == RangeSpec(0, 200, false);
    assert "200"[..2] == "20" && "20"[..1] == "2";
    assert Value("2") == 2;
    assert Value("20") == 20;
    assert Value("200") == 200;
    assert AtOrBeyondMax(s, 200);
  }

  /**
   * Optimistic tilt close has the same defect, visible even on the default
   * tilt range once it is inverted: closing stores 0 while a report of the
   * closed value 0 reads 100 %, which the corrected command stores.
   */
  lemma TiltCloseGuessUnconverted()
    ensures
      var cfg := RangeConfig(100, 0).(tiltCommandTopic := Some("cover/tilt/set"), tiltInvert := true);
      var c := Setup(cfg).cover;
      && c.tiltOptimistic
      && CloseCoverTilt(cfg, c).cover.tilt == TiltAt(0)
      && TiltUpdated(cfg, c, "0").cover.tilt == TiltAt(100)
      && CloseCoverTiltIntended(cfg, c).cover.tilt == TiltAt(100)
  {
    var cfg := RangeConfig(100, 0).(tiltCommandTopic := Some("cover/tilt/set"), tiltInvert := true);
    assert Value("0") == 0;
    assert AtOrBeyondMin(RangeOf(cfg, TiltRange), 0);
  }
}

=== FILE: inbound.dfy ===
/**
 * The three subscription callbacks: tilt status, open/closed state and
 * position. Each either updates the cover and schedules one state update,
 * or rejects the payload and changes nothing.
 */
module Inbound {
  import opened Wrappers
  import opened Rounding
  import opened Digits
  import opened RangeMap
  import opened CoverConfig
  import opened CoverState

  /**
   * The payload after the value template, if one is configured; `None` when
   * rendering raised, in which case the callback stops before changing anything.
   */
  function Rendered(cfg: Config, payload: string): Option<string>
  {
    match cfg.valueTemplate
    case None => Some(payload)
    case Some(render) => render(payload)
  }

  /** The tilt callback accepts all-digit payloads inside `tilt_min..tilt_max`. */
  predicate TiltAccepts(cfg: Config, payload: string)
  {
    IsNumeric(payload) && cfg.tiltMin <= Value(payload) <= cfg.tiltMax
  }

  /** `tilt_updated` */
  function TiltUpdated(cfg: Config, c: Cover, payload: string): (st: Step)
    requires TiltAccepts(cfg, payload) ==> cfg.tiltMin != cfg.tiltMax
    ensures st.published.None?
    ensures st.notified <==> TiltAccepts(cfg, payload)
    // a rejected payload changes nothing
    ensures !st.notified ==> st.cover == c
    // an accepted one changes the tilt only ...
    ensures st.notified ==> st.cover == c.(tilt := st.cover.tilt) && st.cover.tilt.TiltAt?
    // ... to a percentage ...
    ensures st.notified ==> 0 <= st.cover.tilt.level <= 100
    // ... nearest to where the value sits in the tilt range, counted from
    // tilt_max instead of tilt_min when the tilt is inverted
    ensures st.notified ==>
      var s := RangeOf(cfg, TiltRange);
      2 * Abs(Uninverted(s, st.cover.tilt.level) * Span(s) - 100 * (Value(payload) - s.min)) <= Abs(Span(s))
    // ... and on an exact half the even one
    ensures st.notified ==>
      var s := RangeOf(cfg, TiltRange);
      2 * Abs(Uninverted(s, st.cover.tilt.level) * Span(s) - 100 * (Value(payload) - s.min)) == Abs(Span(s)) ==>
        Uninverted(s, st.cover.tilt.level) % 2 == 0
  {
    if TiltAccepts(cfg, payload) then
      var s := RangeOf(cfg, TiltRange);
      ToPercentageNearest(s, Value(payload));
      var level := ToPercentage(s, Value(payload));
      Step(c.(tilt := TiltAt(level)), true, None)
    else
      Step(c, false, None)
  }

  /** The state callback accepts exactly the open and the closed token. */
  predicate StateAccepts(cfg: Config, payload: string)
  {
    var rendered := Rendered(cfg, payload);
    rendered.Some? && (rendered.value == cfg.stateOpen || rendered.value == cfg.stateClosed)
  }

  /** `state_message_received` */
  function StateMessageReceived(cfg: Config, c: Cover, payload: string): (st: Step)
    ensures st.published.None?
    ensures st.notified <==> StateAccepts(cfg, payload)
    ensures !st.notified ==> st.cover == c
    // only the closed flag changes: the cover is open on the open token,
    // and closed on the closed token unless it is also the open token
    ensures st.notified ==>
      st.cover == c.(closed := Some(Rendered(cfg, payload).value != cfg.stateOpen))
  {
    match Rendered(cfg, payload)
    case None => Step(c, false, None)
    case Some(p) =>
      if p == cfg.stateOpen then Step(c.(closed := Some(false)), true, None)
      else if p == cfg.stateClosed then Step(c.(closed := Some(true)), true, None)
      else Step(c, false, None)
  }

  /** The position callback accepts any rendered all-digit payload. */
  predicate PositionAccepts(cfg: Config, payload: string)
  {
    var rendered := Rendered(cfg, payload);
    rendered.Some? && IsNumeric(rendered.value)
  }

  /** `position_message_received` */
  function PositionMessageReceived(cfg: Config, c: Cover, payload: string): (st: Step)
    requires PositionAccepts(cfg, payload) ==> cfg.positionOpen != cfg.positionClosed
    ensures st.published.None?
    ensures st.notified <==> PositionAccepts(cfg, payload)
    ensures !st.notified ==> st.cover == c
    // an accepted payload sets a percentage position, and the cover is
    // closed exactly when that percentage is 0
    ensures st.notified ==>
      && st.cover.position.Some?
      && 0 <= st.cover.position.value <= 100
      && st.cover == c.(position := st.cover.position, closed := Some(st.cover.position.value == 0))
    // values at or past the closed end read 0 %, at or past the open end 100 %
    ensures st.notified && AtOrBeyondMin(RangeOf(cfg, CoverRange), Value(Rendered(cfg, payload).value)) ==>
      st.cover.position == Some(0)
    ensures st.notified && AtOrBeyondMax(RangeOf(cfg, CoverRange), Value(Rendered(cfg, payload).value)) ==>
      st.cover.position == Some(100)
    // in between, the percentage nearest to the value
    ensures st.notified ==>
      var s := RangeOf(cfg, CoverRange);
      var v := Value(Rendered(cfg, payload).value);
      Between(s.min, v, s.max) ==>
        2 * Abs(st.cover.position.value * Span(s) - 100 * (v - s.min)) <= Abs(Span(s))
    // and on an exact half the even one
    ensures st.notified ==>
      var s := RangeOf(cfg, CoverRange);
      var v := Value(Rendered(cfg, payload).value);
      Between(s.min, v, s.max) && 2 * Abs(st.cover.position.value * Span(s) - 100 * (v - s.min)) == Abs(Span(s)) ==>
        st.cover.position.value % 2 == 0
  {
    match Rendered(cfg, payload)
    case None => Step(c, false, None)
    case Some(p) =>
      if IsNumeric(p) then
        var s := RangeOf(cfg, CoverRange);
        var v := Value(p);
        assert Between(s.min, v, s.max) ==>
          && 2 * Abs(ToPercentage(s, v) * Span(s) - 100 * (v - s.min)) <= Abs(Span(s))
          && (2 * Abs(ToPercentage(s, v) * Span(s) - 100 * (v - s.min)) == Abs(Span(s)) ==> ToPercentage(s, v) % 2 == 0) by {
          if Between(s.min, v, s.max) {
            ToPercentageNearest(s, v);
          }
        }
        var percentage := ToPercentage(s, v);
        Step(c.(position := Some(percentage), closed := Some(percentage == DefaultPositionClosed)), true, None)
      else
        Step(c, false, None)
  }

  /**
   * On the default ranges: a position report of 0 means closed at 0 %, one
   * of 100 means open at 100 %, and a tilt report of 150 is ignored.
   */
  lemma DefaultRangeReports(cfg: Config, c: Cover)
    requires cfg.valueTemplate.None?
    requires cfg.positionOpen == DefaultPositionOpen && cfg.positionClosed == DefaultPositionClosed
    requires cfg.tiltMin == 0 && cfg.tiltMax == 100
    ensures PositionMessageReceived(cfg, c, "0") == Step(c.(position := Some(0), closed := Some(true)), true, None)
    ensures PositionMessageReceived(cfg, c, "100") == Step(c.(position := Some(100), closed := Some(false)), true, None)
    ensures TiltUpdated(cfg, c, "150") == Step(c, false, None)
  {
    var s := RangeOf(cfg, CoverRange);
    assert s == RangeSpec(0, 100, false);
    assert Value("0") == 0;
    assert AtOrBeyondMin(s, 0);
    var atClosed := PositionMessageReceived(cfg, c, "0");
    assert atClosed.cover.position == Some(0);
    assert Value("100") == 100;
    assert AtOrBeyondMax(s, 100);
    var atOpen := PositionMessageReceived(cfg, c, "100");
    assert atOpen.cover.position == Some(100);
    assert Value("150") == 150;
  }
}

=== FILE: range_map.dfy ===
/**
 * Conversion between a device's native integer range and the 0-100
 * percentage scale, as done by `find_percentage_in_range` and
 * `find_in_range_from_percent`. Arithmetic is exact; `round` is Python 3's
 * round-half-to-even.
 */
module RangeMap {
  import opened Rounding

  /**
   * A native range: `min` is the end reported as 0 %, `max` the end reported
   * as 100 %. Either may be the larger one. `invert` flips the percentage
   * scale; only the tilt range ever sets it.
   */
  datatype RangeSpec = RangeSpec(min: int, max: int, invert: bool)

  function Span(s: RangeSpec): int
  {
    s.max - s.min
  }

  /** v lies on the closed segment between a and b, whichever order they come in. */
  predicate Between(a: int, v: int, b: int)
  {
    a <= v <= b || b <= v <= a
  }

  /** v lies at or beyond the `min` end, on the side away from `max`. */
  predicate AtOrBeyondMin(s: RangeSpec, v: int)
  {
    (s.min < s.max && v <= s.min) || (s.max < s.min && s.min <= v)
  }

  /** v lies at or beyond the `max` end, on the side away from `min`. */
  predicate AtOrBeyondMax(s: RangeSpec, v: int)
  {
    (s.min < s.max && s.max <= v) || (s.max < s.min && v <= s.max)
  }

  /** The percentage read on the un-inverted scale. */
  function Uninverted(s: RangeSpec, p: int): int
  {
    if s.invert then 100 - p else p
  }

  /** `min(max(p, 0), 100)` */
  function Clamp(p: int): int
  {
    if p < 0 then 0 else if p > 100 then 100 else p
  }

  /** The clamped, un-inverted percentage. */
  function RawPercentage(s: RangeSpec, value: int): int
    requires s.max != s.min
  {
    Clamp(RoundHalfEven(100 * (value - s.min), Span(s)))
  }

  lemma RawPercentageAtMin(s: RangeSpec, value: int)
    requires AtOrBeyondMin(s, value)
    ensures RawPercentage(s, value) == 0
  {
    var n := 100 * (value - s.min);
    if Span(s) > 0 {
      RoundNonPositive(n, Span(s));
    } else {
      RoundNegateBoth(n, Span(s));
      RoundNonPositive(-n, -Span(s));
    }
  }

  lemma RawPercentageAtMax(s: RangeSpec, value: int)
    requires AtOrBeyondMax(s, value)
    ensures RawPercentage(s, value) == 100
  {
    var n := 100 * (value - s.min);
    if Span(s) > 0 {
      RoundAtLeast(n, Span(s), 100);
    } else {
      RoundNegateBoth(n, Span(s));
      RoundAtLeast(-n, -Span(s), 100);
    }
  }

  /** `find_percentage_in_range`: native value to a percentage in 0..100. */
  function ToPercentage(s: RangeSpec, value: int): (p: int)
    requires s.max != s.min
    ensures 0 <= p <= 100
    ensures AtOrBeyondMin(s, value) ==> Uninverted(s, p) == 0
    ensures AtOrBeyondMax(s, value) ==> Uninverted(s, p) == 100
  {
    assert AtOrBeyondMin(s, value) ==> RawPercentage(s, value) == 0 by {
      if AtOrBeyondMin(s, value) {
        RawPercentageAtMin(s, value);
      }
    }
    assert AtOrBeyondMax(s, value) ==> RawPercentage(s, value) == 100 by {
      if AtOrBeyondMax(s, value) {
        RawPercentageAtMax(s, value);
      }
    }
    var raw := RawPercentage(s, value);
    if s.invert then 100 - raw else raw
  }

  /** The rounded distance, in native units, of pct % from the `min` end. */
  function Offset(s: RangeSpec, pct: int): int
  {
    RoundHalfEven(Span(s) * pct, 100)
  }

  lemma OffsetWithin(s: RangeSpec, pct: int)
    requires 0 <= pct <= 100
    ensures Between(0, Offset(s, pct), Span(s))
  {
    var span := Span(s);
    if span >= 0 {
      MulMonotone(0, pct, span);
      MulMonotone(pct, 100, span);
      RoundWithin(span * pct, 100, 0, span);
    } else {
      MulMonotone(0, pct, -span);
      MulMonotone(pct, 100, -span);
      RoundWithin(span * pct, 100, span, 0);
    }
  }

  lemma OffsetEnds(s: RangeSpec)
    ensures Offset(s, 0) == 0
    ensures Offset(s, 100) == Span(s)
  {
    RoundExact(0, 100);
    RoundExact(Span(s), 100);
  }

  /** `find_in_range_from_percent`: a percentage to the native value. */
  function FromPercentage(s: RangeSpec, pct: int): (v: int)
    // v is the native value nearest to the point pct % of the way from the
    // 0 % end (`min`, or `max` when inverted) towards the other end
    ensures !s.invert ==> 2 * Abs(100 * (v - s.min) - Span(s) * pct) <= 100
    ensures s.invert ==> 2 * Abs(100 * (s.max - v) - Span(s) * pct) <= 100
    // on an exact half the distance from the 0 % end is even
    ensures !s.invert && 2 * Abs(100 * (v - s.min) - Span(s) * pct) == 100 ==> (v - s.min) % 2 == 0
    ensures s.invert && 2 * Abs(100 * (s.max - v) - Span(s) * pct) == 100 ==> (s.max - v) % 2 == 0
    ensures 0 <= pct <= 100 ==> Between(s.min, v, s.max)
    ensures pct == 0 ==> v == (if s.invert then s.max else s.min)
    ensures pct == 100 ==> v == (if s.invert then s.min else s.max)
  {
    OffsetEnds(s);
    assert 0 <= pct <= 100 ==> Between(0, Offset(s, pct), Span(s)) by {
      if 0 <= pct <= 100 {
        OffsetWithin(s, pct);
      }
    }
    var raw := Offset(s, pct) + s.min;
    if s.invert then s.max - raw + s.min else raw
  }

  /** Inversion is exactly the complement on the percentage scale. */
  lemma InversionComplements(s: RangeSpec, value: int, pct: int)
    requires s.max != s.min
    ensures ToPercentage(s.(invert := true), value) == 100 - ToPercentage(s.(invert := false), value)
    ensures FromPercentage(s.(invert := true), pct) == s.max + s.min - FromPercentage(s.(invert := false), pct)
  {
  }

  /** Within the range nothing is clamped: the reading is the nearest percentage. */
  lemma ToPercentageNearest(s: RangeSpec, value: int)
    requires s.max != s.min
    requires Between(s.min, value, s.max)
    ensures 2 * Abs(Uninverted(s, ToPercentage(s, value)) * Span(s) - 100 * (value - s.min)) <= Abs(Span(s))
    // on an exact half the un-inverted percentage is the even one
    ensures 2 * Abs(Uninverted(s, ToPercentage(s, value)) * Span(s) - 100 * (value - s.min)) == Abs(Span(s)) ==>
      Uninverted(s, ToPercentage(s, value)) % 2 == 0
  {
    var n := 100 * (value - s.min);
    var d := Span(s);
    if d > 0 {
      RoundWithin(n, d, 0, 100);
    } else {
      RoundNegateBoth(n, d);
      RoundWithin(-n, -d, 0, 100);
    }
  }

  /** The step that makes a percentage survive the trip to native units and back. */
  lemma RoundBack(r: int, k: int, q: int)
    requires Abs(r) >= 100
    requires 2 * Abs(100 * k - r * q) <= 100
    ensures RoundHalfEven(100 * k, r) == q
  {
    if Abs(r) == 100 {
      var m := if r > 0 then k - q else k + q;
      assert 100 * k - r * q == 100 * m;
      if m != 0 {
        MulAbsAtLeast(m, 100);
      }
    }
    RoundHalfEvenUnique(100 * k, r, q);
  }

  /**
   * On a range at least 100 native units wide every percentage is reached:
   * converting a percentage to a native value and back returns it unchanged.
   */
  lemma {:induction false} PercentRoundTrip(s: RangeSpec, pct: int)
    requires Abs(Span(s)) >= 100
    requires 0 <= pct <= 100
    ensures ToPercentage(s, FromPercentage(s, pct)) == pct
  {
    var v := FromPercentage(s, pct);
    if s.invert {
      assert 2 * Abs(100 * (Span(s) - (v - s.min)) - Span(s) * pct) <= 100;
      assert 100 * (v - s.min) - Span(s) * (100 - pct) == -(100 * (Span(s) - (v - s.min)) - Span(s) * pct);
      RoundBack(Span(s), v - s.min, 100 - pct);
    } else {
      RoundBack(Span(s), v - s.min, pct);
    }
  }

  /**
   * A native value inside the range survives the trip to a percentage and
   * back to within half a native unit plus half a percent of the range.
   */
  lemma {:induction false} NativeRoundTrip(s: RangeSpec, value: int)
    requires s.max != s.min
    requires Between(s.min, value, s.max)
    ensures 200 * Abs(FromPercentage(s, ToPercentage(s, value)) - value) <= 100 + Abs(Span(s))
  {
    var p := ToPercentage(s, value);
    var w := FromPercentage(s, p);
    ToPercentageNearest(s, value);
    if s.invert {
      InvertedErrorSum(Span(s), s.min, s.max, value, p, w);
    } else {
      PlainErrorSum(Span(s), s.min, value, p, w);
    }
  }

  lemma PlainErrorSum(span: int, lo: int, value: int, p: int, w: int)
    requires 2 * Abs(p * span - 100 * (value - lo)) <= Abs(span)
    requires 2 * Abs(100 * (w - lo) - span * p) <= 100
    ensures 200 * Abs(w - value) <= 100 + Abs(span)
  {
    var x := span * p;
    assert p * span == x;
    SumBound(w - value, 100 * (w - lo) - x, x - 100 * (value - lo), span);
  }

  lemma InvertedErrorSum(span: int, lo: int, hi: int, value: int, p: int, w: int)
    requires span == hi - lo
    requires 2 * Abs((100 - p) * span - 100 * (value - lo)) <= Abs(span)
    requires 2 * Abs(100 * (hi - w) - span * p) <= 100
    ensures 200 * Abs(w - value) <= 100 + Abs(span)
  {
    var x := span * p;
    MulSubDistributes(100, p, span);
    assert (100 - p) * span == 100 * span - x;
    SumBound(w - value, x - 100 * (hi - w), 100 * span - x - 100 * (value - lo), span);
  }

  /** Adding the two rounding errors: one of at most 50 and one of at most |span| / 2. */
  lemma SumBound(diff: int, back: int, near: int, span: int)
    requires 100 * diff == back + near
    requires 2 * Abs(back) <= 100
    requires 2 * Abs(near) <= Abs(span)
    ensures 200 * Abs(diff) <= 100 + Abs(span)
  {
  }

  /** The worked example of `find_in_range_from_percent`: 90 % of 80..180 is 170. */
  lemma DocstringExample()
    ensures FromPercentage(RangeSpec(80, 180, false), 90) == 170
    ensures ToPercentage(RangeSpec(80, 180, false), 170) == 90
  {
  }

  /**
   * Halves go to the even neighbour, and a range wider than 100 units cannot
   * return every native value: on 0..1000 the value 5 reads 0 % (0.5 rounds
   * to 0) and 0 % converts back to 0.
   */
  lemma HalfToEvenExamples()
    ensures ToPercentage(RangeSpec(0, 200, false), 1) == 0
    ensures ToPercentage(RangeSpec(0, 200, false), 3) == 2
    ensures FromPercentage(RangeSpec(0, 1000, false), ToPercentage(RangeSpec(0, 1000, false), 5)) == 0
  {
  }
}

=== FILE: reconciliation.dfy ===
/**
 * How the optimistic guesses of the command handlers relate to what the
 * device later reports through the inbound callbacks.
 */
module Reconciliation {
  import opened Wrappers
  import opened Rounding
  import opened Digits
  import opened RangeMap
  import opened CoverConfig
  import opened CoverState
  import opened Inbound
  import opened Commands

  /**
   * Optimistic open and close assume exactly what the state callback would
   * set on receiving the open or the closed token.
   */
  lemma OpenCloseMatchStateReports(cfg: Config, c: Cover)
    requires c.optimistic && !Truthy(cfg.positionTopic)
    requires cfg.valueTemplate.None?
    ensures OpenCover(cfg, c).cover == StateMessageReceived(cfg, c, cfg.stateOpen).cover
    ensures cfg.stateClosed != cfg.stateOpen ==>
      CloseCover(cfg, c).cover == StateMessageReceived(cfg, c, cfg.stateClosed).cover
  {
  }

  /**
   * With a position topic, optimistic open and close assume exactly what the
   * position callback would set on receiving the open or the closed native
   * position.
   */
  lemma OpenCloseMatchPositionReports(cfg: Config, c: Cover)
    requires c.optimistic && Truthy(cfg.positionTopic)
    requires cfg.valueTemplate.None?
    requires cfg.positionOpen != cfg.positionClosed
    requires cfg.positionOpen >= 0 && cfg.positionClosed >= 0
    ensures OpenCover(cfg, c).cover == PositionMessageReceived(cfg, c, Show(cfg.positionOpen)).cover
    ensures CloseCover(cfg, c).cover == PositionMessageReceived(cfg, c, Show(cfg.positionClosed)).cover
  {
    ValueOfShow(cfg.positionOpen);
    ValueOfShow(cfg.positionClosed);
  }

  /**
   * A tilt position command echoed back by the device on the tilt status
   * topic yields the requested percentage again, provided the tilt range is
   * ascending, non-negative and at least 100 units wide.
   */
  lemma {:induction false} TiltCommandRoundTrip(cfg: Config, c: Cover, pct: int)
    requires 0 <= cfg.tiltMin && cfg.tiltMin + 100 <= cfg.tiltMax
    requires 0 <= pct <= 100
    ensures SetCoverTiltPosition(cfg, c, Some(pct)).published.value.payload.value >= 0
    ensures
      var level := SetCoverTiltPosition(cfg, c, Some(pct)).published.value.payload.value;
      TiltUpdated(cfg, c, Show(level)) == Step(c.(tilt := TiltAt(pct)), true, None)
  {
    var s := RangeOf(cfg, TiltRange);
    var level := FromPercentage(s, pct);
    ValueOfShow(level);
    PercentRoundTrip(s, pct);
  }

  /** On the default 0..100 range the conversion is the identity. */
  lemma DefaultRangeIsIdentity(pct: int)
    ensures FromPercentage(RangeSpec(DefaultPositionClosed, DefaultPositionOpen, false), pct) == pct
  {
    RoundExact(pct, 100);
  }

  /** Without templates the corrected command publishes the converted percentage. */
  lemma IntendedPayload(cfg: Config, c: Cover, pct: int)
    requires cfg.setPositionTemplate.None?
    ensures SetCoverPositionIntended(cfg, c, Some(pct)).published
      == Some(Publication(SetPositionTopic, Number(FromPercentage(RangeOf(cfg, CoverRange), pct))))
  {
    if cfg.positionOpen == DefaultPositionOpen && cfg.positionClosed == DefaultPositionClosed {
      DefaultRangeIsIdentity(pct);
    }
  }

  /** What the position callback makes of the decimal spelling of a native value. */
  lemma PositionReport(cfg: Config, c: Cover, n: nat)
    requires cfg.valueTemplate.None?
    requires cfg.positionOpen != cfg.positionClosed
    ensures
      var p := ToPercentage(RangeOf(cfg, CoverRange), n);
      PositionMessageReceived(cfg, c, Show(n)).cover == c.(position := Some(p), closed := Some(p == 0))
  {
    ValueOfShow(n);
  }

  /**
   * The corrected set-position command reconciles: the native value it
   * publishes, reported back on the position topic, yields the requested
   * percentage and the same closed flag, which is also exactly what the
   * optimistic branch assumed.
   */
  lemma {:induction false} IntendedSetPositionRoundTrip(cfg: Config, c: Cover, pct: int)
    requires cfg.setPositionTemplate.None? && cfg.valueTemplate.None?
    requires cfg.positionOpen >= 0 && cfg.positionClosed >= 0
    requires Abs(cfg.positionOpen - cfg.positionClosed) >= 100
    requires 0 <= pct <= 100
    ensures SetCoverPositionIntended(cfg, c, Some(pct)).published.value.payload.value >= 0
    ensures
      var n := SetCoverPositionIntended(cfg, c, Some(pct)).published.value.payload.value;
      var report := PositionMessageReceived(cfg, c, Show(n)).cover;
      && report.position == Some(pct)
      && report.closed == Some(pct == 0)
      && (c.optimistic ==> SetCoverPositionIntended(cfg, c, Some(pct)).cover == report)
  {
    var s := RangeOf(cfg, CoverRange);
    var n := FromPercentage(s, pct);
    IntendedPayload(cfg, c, pct);
    PositionReport(cfg, c, n);
    PercentRoundTrip(s, pct);
  }

  /** On the default tilt range 0..100 a native tilt reads as the same percentage. */
  lemma DefaultTiltReadsAsIs(v: int)
    requires 0 <= v <= 100
    ensures ToPercentage(RangeSpec(0, 100, false), v) == v
  {
    RoundExact(v, 100);
  }

  /**
   * On the default, non-inverted tilt range, optimistic tilt open and close
   * store exactly what the tilt status callback would set on a report of
   * the configured open or closed value.
   */
  lemma TiltOpenCloseMatchReports(cfg: Config, c: Cover)
    requires c.tiltOptimistic
    requires cfg.tiltMin == 0 && cfg.tiltMax == 100 && !cfg.tiltInvert
    requires 0 <= cfg.tiltOpenPosition <= 100 && 0 <= cfg.tiltClosedPosition <= 100
    ensures OpenCoverTilt(cfg, c).cover == TiltUpdated(cfg, c, Show(cfg.tiltOpenPosition)).cover
    ensures CloseCoverTilt(cfg, c).cover == TiltUpdated(cfg, c, Show(cfg.tiltClosedPosition)).cover
  {
    ValueOfShow(cfg.tiltOpenPosition);
    ValueOfShow(cfg.tiltClosedPosition);
    DefaultTiltReadsAsIs(cfg.tiltOpenPosition);
    DefaultTiltReadsAsIs(cfg.tiltClosedPosition);
  }

  /**
   * The corrected tilt open and close store exactly what the tilt status
   * callback would set on a report of the configured value, on every
   * tilt range the configured value is reportable in.
   */
  lemma IntendedTiltMatchesReports(cfg: Config, c: Cover)
    requires c.tiltOptimistic
    requires cfg.tiltMin < cfg.tiltMax
    requires 0 <= cfg.tiltOpenPosition && cfg.tiltMin <= cfg.tiltOpenPosition <= cfg.tiltMax
    requires 0 <= cfg.tiltClosedPosition && cfg.tiltMin <= cfg.tiltClosedPosition <= cfg.tiltMax
    ensures OpenCoverTiltIntended(cfg, c) == TiltUpdated(cfg, c, Show(cfg.tiltOpenPosition)).(published := OpenCoverTiltIntended(cfg, c).published)
    ensures CloseCoverTiltIntended(cfg, c) == TiltUpdated(cfg, c, Show(cfg.tiltClosedPosition)).(published := CloseCoverTiltIntended(cfg, c).published)
  {
    ValueOfShow(cfg.tiltOpenPosition);
    ValueOfShow(cfg.tiltClosedPosition);
  }

  /**
   * Set cover position as written coincides with the corrected command
   * wherever neither defect applies: a template is configured or the range
   * ends are both default or both not, and the cover is not optimistic or its
   * closed position is 0.
   */
  lemma SetCoverPositionAgreesWithIntended(cfg: Config, c: Cover, pct: int)
    requires || cfg.setPositionTemplate.Some?
             || (cfg.positionOpen == DefaultPositionOpen && cfg.positionClosed == DefaultPositionClosed)
             || (cfg.positionOpen != DefaultPositionOpen && cfg.positionClosed != DefaultPositionClosed)
    requires !c.optimistic || cfg.positionClosed == DefaultPositionClosed
    ensures SetCoverPosition(cfg, c, Some(pct)) == SetCoverPositionIntended(cfg, c, Some(pct))
  {
  }

  /**
   * Where neither defect applies, the command as written reconciles: on a
   * range at least 100 wide the value it publishes reads back as the
   * requested percentage, and an optimistic guess equals that report.
   */
  lemma {:induction false} SetCoverPositionRoundTrip(cfg: Config, c: Cover, pct: int)
    requires cfg.setPositionTemplate.None? && cfg.valueTemplate.None?
    requires (cfg.positionOpen == DefaultPositionOpen) == (cfg.positionClosed == DefaultPositionClosed)
    requires !c.optimistic || cfg.positionClosed == DefaultPositionClosed
    requires cfg.positionOpen >= 0 && cfg.positionClosed >= 0
    requires Abs(cfg.positionOpen - cfg.positionClosed) >= 100
    requires 0 <= pct <= 100
    ensures SetCoverPosition(cfg, c, Some(pct)).published.value.payload.value >= 0
    ensures
      var n := SetCoverPosition(cfg, c, Some(pct)).published.value.payload.value;
      var report := PositionMessageReceived(cfg, c, Show(n)).cover;
      && report.position == Some(pct)
      && report.closed == Some(pct == 0)
      && (c.optimistic ==> SetCoverPosition(cfg, c, Some(pct)).cover == report)
  {
    SetCoverPositionAgreesWithIntended(cfg, c, pct);
    IntendedSetPositionRoundTrip(cfg, c, pct);
  }
}

=== FILE: rounding.dfy ===
/**
 * Python 3's built-in `round` applied to an exact rational number: the nearest
 * integer, with ties going to the even neighbour.
 */
module Rounding {

  function Abs(x: int): nat
  {
    if x < 0 then -x else x
  }

  lemma MulSuccessor(q: int, d: int)
    ensures (q + 1) * d == q * d + d
  {
  }

  lemma MulNegate(k: int, d: int)
    ensures k * (-d) == -(k * d)
  {
  }

  /** `round(n / d)` for a positive divisor. */
  function RoundPositive(n: int, d: int): (k: int)
    requires d > 0
    ensures 2 * Abs(k * d - n) <= d
    ensures 2 * Abs(k * d - n) == d ==> k % 2 == 0
  {
    var q := n / d;
    var r := n % d;
    assert n == q * d + r;
    MulSuccessor(q, d);
    if 2 * r < d || (2 * r == d && q % 2 == 0) then
      q
    else
      q + 1
  }

  /** `round(n / d)` over the rationals, ties to even. */
  function RoundHalfEven(n: int, d: int): (k: int)
    requires d != 0
    // k is a nearest integer to n / d ...
    ensures 2 * Abs(k * d - n) <= Abs(d)
    // ... and on a tie it is the even one
    ensures 2 * Abs(k * d - n) == Abs(d) ==> k % 2 == 0
  {
    if d < 0 then
      var k := RoundPositive(-n, -d);
      MulNegate(k, d);
      k
    else
      RoundPositive(n, d)
  }

  /** A product of naturals is at least its right factor when the left one is positive. */
  lemma {:induction false} NatMulAtLeast(a: nat, b: nat)
    requires a >= 1
    ensures a * b >= b
  {
    if a > 1 {
      NatMulAtLeast(a - 1, b);
      assert a * b == (a - 1) * b + b;
    }
  }

  /** |m * d| is at least |d| whenever m is a non-zero integer. */
  lemma MulAbsAtLeast(m: int, d: int)
    requires m != 0
    ensures Abs(m * d) >= Abs(d)
  {
    NatMulAtLeast(Abs(m), Abs(d));
    if m < 0 {
      assert m * d == -(Abs(m) * d);
    } else {
      assert m * d == Abs(m) * d;
    }
    if d < 0 {
      assert Abs(m) * d == -(Abs(m) * Abs(d));
    } else {
      assert Abs(m) * d == Abs(m) * Abs(d);
    }
  }

  lemma MulSubDistributes(j: int, k: int, d: int)
    ensures (j - k) * d == j * d - k * d
  {
  }

  /** An integer strictly closer than one half to n / d is the rounded value. */
  lemma RoundHalfEvenUnique(n: int, d: int, k: int)
    requires d != 0
    requires 2 * Abs(k * d - n) < Abs(d)
    ensures RoundHalfEven(n, d) == k
  {
    var j := RoundHalfEven(n, d);
    if j != k {
      MulAbsAtLeast(j - k, d);
      MulSubDistributes(j, k, d);
      assert false;
    }
  }

  /** Rounding an exact quotient gives the quotient itself. */
  lemma RoundExact(k: int, d: int)
    requires d != 0
    ensures RoundHalfEven(k * d, d) == k
  {
    RoundHalfEvenUnique(k * d, d, k);
  }

  /** Multiplying by a non-negative factor preserves order. */
  lemma MulMonotone(a: int, b: int, d: int)
    requires a <= b && d >= 0
    ensures a * d <= b * d
  {
    if a < b && d > 0 {
      NatMulAtLeast(b - a, d);
      MulSubDistributes(b, a, d);
    } else if a < b {
      assert d == 0;
    }
  }

  /** Rounding a quotient that lies between two integers stays between them. */
  lemma RoundWithin(n: int, d: int, lo: int, hi: int)
    requires d > 0
    requires lo * d <= n <= hi * d
    ensures lo <= RoundHalfEven(n, d) <= hi
  {
    var k := RoundHalfEven(n, d);
    if k < lo {
      MulMonotone(k + 1, lo, d);
      MulSuccessor(k, d);
    } else if k > hi {
      MulMonotone(hi + 1, k, d);
      MulSuccessor(hi, d);
    }
  }

  /** Negating both operands leaves the rounded quotient unchanged. */
  lemma RoundNegateBoth(n: int, d: int)
    requires d != 0
    ensures RoundHalfEven(-n, -d) == RoundHalfEven(n, d)
  {
  }

  /** A non-positive quotient never rounds above 0. */
  lemma RoundNonPositive(n: int, d: int)
    requires d > 0 && n <= 0
    ensures RoundHalfEven(n, d) <= 0
  {
    var k := RoundHalfEven(n, d);
    if k > 0 {
      NatMulAtLeast(k, d);
    }
  }

  /** A quotient of at least m never rounds below m. */
  lemma RoundAtLeast(n: int, d: int, m: int)
    requires d > 0 && m * d <= n
    ensures m <= RoundHalfEven(n, d)
  {
    var k := RoundHalfEven(n, d);
    if k < m {
      MulMonotone(k, m - 1, d);
      MulSubDistributes(m, 1, d);
    }
  }
}

=== FILE: wrappers.dfy ===
/** Optional values and validation results used throughout the cover model. */
module Wrappers {

  /** A value that may be absent; `None` plays the role of Python's `None`. */
  datatype Option<+T> = None | Some(value: T)

  /** The outcome of a validation step: the validated value or a reason for refusal. */
  datatype Result<+R, +E> = Success(value: R) | Failure(error: E)
}
